=== FILE: README.md ===
# Cortex Analyst "Winter Game" chat front-end — Dafny model

This project models the decision logic of `analyst_winter_game.py`. That file is a Streamlit page that sends questions to the Snowflake Cortex Analyst endpoint and shows the answers. The model covers four things:

- **Assistant client** (`send_message`). It resolves a semantic-model selector to the staged YAML file `@CORTEX_ANALYST_DEMO.WINTER_GAME.RAW_DATA/<file>`. It builds the single-message request, makes one call, and classifies the reply by its HTTP status.
- **Content dispatcher** (`display_content`). It turns the typed blocks of a message (`text`, `suggestions`, `sql`, anything else) into render actions, in block order. SQL results are shown as one table, or as table, line chart and bar chart. Suggestion buttons are keyed `f"{message_index}_{i}"`, where the index comes from `message_index or len(messages)`. A clicked button sets the active suggestion.
- **Message orchestrator** (`process_message`). It appends the user message, calls the assistant, renders the reply, and only then appends the assistant message.
- **Session logic** (lines 122-136). It initialises the session state once and replays the log. Then it processes typed input and then the active suggestion. The suggestion is cleared only after it was processed without an exception.

Streamlit calls are `Action` values (`ContentRenderer.Action`). The foreign calls are parameters of the model:

- The HTTP reply is a status plus an already-decoded body (`Types.HttpReply`).
- The data backend is a function from a statement to a frame shape or a failure (`Types.Database`).
- A button click is the widget key Streamlit reports for the run.

A Python exception ends the script run. The model represents it as a `failure` field. Work after the failure point is not done, and state changed before it is kept.

Modules, one file each: `Wrappers` (Option/Result), `Types` (messages, blocks, replies, errors), `Config` (constants and selector table), `WidgetKeys` (the key string and its injectivity), `AssistantClient`, `ContentRenderer`, `Orchestrator`, `Session`.

Behaviour of the code worth noting:

- A failed exchange leaves its user message in the log with no answer, so the log does not strictly alternate. The invariant that does hold is `Orchestrator.WellFormedLog`: every assistant message directly follows a user message, and every user message is one text block.
- A failing SQL query raises out of `display_content` before the assistant message is appended. So the answer is not logged, and the blocks after the failing one are not rendered. The suggestions of such an answer are shown, but they can never be selected. A click arrives in the next run, and the answer is not in the log, so its buttons are not shown again. Their key index is the log length, which the replay gives only to position 0, and that position is a user message with no buttons (`Session.RaisedAnswerNeverSelected`).
- A suggestion whose exchange raised stays active, because the reset after `process_message` is skipped. The next run sends it again after any newly typed question, and each failed attempt logs one more user message (`Session.RaisedSuggestionResent`).
- Empty chat input and an empty active suggestion are falsy, so they are not processed. An empty active suggestion is never cleared.

## Model

| member | source | states |
|---|---|---|
| Config.StagePathValue | analyst_winter_game.py:7-9 | the stage reference built from `DATABASE`, `SCHEMA` and `STAGE` is `@CORTEX_ANALYST_DEMO.WINTER_GAME.RAW_DATA/` |
| Config.SemanticModelFile | analyst_winter_game.py:40 | a known selector key yields exactly `"@CORTEX_ANALYST_DEMO.WINTER_GAME.RAW_DATA/" + FILES[key]`; an unknown key fails with `UnknownModel(key)`, and success holds exactly for keys of the table |
| Config.KnownSelectors | analyst_winter_game.py:7-13 | the two configured selectors resolve to `winter_game.yaml` and `winter_game_enrichi.yaml` on the stage; the lookup is exact, so `"winter game"` fails with `UnknownModel` |
| WidgetKeys.Decimal | analyst_winter_game.py:79 | the numeral of an index is non-empty, all digits, and has no leading zero |
| WidgetKeys.DecimalRoundTrip | analyst_winter_game.py:79 | reading a numeral back gives the index it was written from |
| WidgetKeys.KeyRoundTrip | analyst_winter_game.py:79 | splitting a key `"{m}_{i}"` at its first underscore recovers the pair `(m, i)` |
| WidgetKeys.KeyStringInjective | analyst_winter_game.py:79 | two buttons get the same key string exactly when their (message index, suggestion index) pairs are equal |
| AssistantClient.BuildRequest | analyst_winter_game.py:28-41 | the body holds exactly one message, with role user and one text element carrying the prompt unchanged; the model file is the staged path of the selector; an unknown selector fails |
| AssistantClient.SendMessage | analyst_winter_game.py:42-54 | an unknown selector raises with no request issued; otherwise exactly one request, the built one, is issued; status < 400 with a JSON body returns that body; status >= 400 always raises with the status and the reply |
| AssistantClient.CanadaMedalsRequest | analyst_winter_game.py:28-40 | the medal question on "Winter Game" is sent verbatim against `winter_game.yaml` |
| ContentRenderer.ClickThrough | analyst_winter_game.py:78-80 | checking a suggestion list's buttons leaves the active suggestion unchanged unless a button's key was clicked, and then sets it to that button's suggestion |
| ContentRenderer.RenderBlockDispatch | analyst_winter_game.py:73-100 | `ContentRenderer.RenderBlock`, the dispatch on a block's type: only an SQL block whose query fails raises, with that statement; only a suggestions block can add buttons or change the active suggestion, and its buttons carry the given index; an SQL block shows its statement first; a text block shows exactly its markdown |
| ContentRenderer.RenderBlocks | analyst_winter_game.py:73-100 | an empty list renders nothing and raises nothing; rendering completes exactly when every SQL statement executes; all buttons carry the given message index; a click elsewhere changes no active suggestion |
| ContentRenderer.RenderFailureCause | analyst_winter_game.py:81-87 | a rendering that raises raises `QueryFailed` for one of its SQL blocks whose query fails |
| ContentRenderer.RenderKeepsSelection | analyst_winter_game.py:76-80 | rendering never clears a set active suggestion, and the selection it leaves is either the one it started with or one of the suggestions among the rendered blocks |
| ContentRenderer.DisplayContent | analyst_winter_game.py:70-72 | buttons are keyed with `message_index` when it is positive and with `len(messages)` when it is `None` or 0 (the rule `ContentRenderer.EffectiveIndex`); rendering completes exactly when every SQL statement of the content executes |
| ContentRenderer.RenderConcat | analyst_winter_game.py:73-74 | blocks render in order, one group after another: rendering `a + b` is rendering `a` then, unless it raised, `b` |
| ContentRenderer.TextAndUnknownBlocks | analyst_winter_game.py:74-75 | a text block renders as its markdown; a block whose type tag is none of `text`, `suggestions`, `sql` renders nothing |
| ContentRenderer.SuggestionBlock | analyst_winter_game.py:76-79 | a suggestions block renders one button per suggestion, in order, the i-th keyed `(index, i)` |
| ContentRenderer.ClickSelectsSuggestion | analyst_winter_game.py:78-80 | clicking button i sets the active suggestion to exactly `suggestions[i]` |
| ContentRenderer.SqlBlockViews | analyst_winter_game.py:81-100 | the statement is shown first; a failing query raises; more than one row gives table, line and bar views whose chart data is indexed by the first column exactly when there are several columns; zero or one row gives a single table (the views are built by `ContentRenderer.ResultViews` and `ContentRenderer.ChartInput`) |
| ContentRenderer.RenderKeysDistinct | analyst_winter_game.py:76-79 | with at most one suggestions block, the buttons of one message carry distinct keys |
| ContentRenderer.TwoSuggestionBlocksShareKeys | analyst_winter_game.py:73-79 | two suggestions blocks in one message produce two buttons with the same key |
| ContentRenderer.SingleRowAnswer | analyst_winter_game.py:73-100 | a text answer then a one-row `SELECT 1` renders markdown, the SQL excerpt and one table, and nothing else |
| ContentRenderer.RenderClickSelects | analyst_winter_game.py:73-80 | in a message with one suggestions block whose earlier SQL blocks run, clicking button i of that block selects exactly that suggestion, even when a later SQL block of the message raises |
| Orchestrator.ProcessMessage | analyst_winter_game.py:56-68 | the user message (`Orchestrator.UserMessage`: role user, one text block) is appended first; the log grows by two (user, then assistant with the reply's content) exactly when the selector is known, the reply carries content (`Orchestrator.ReplyContent`: status below 400, a JSON body, a `message.content` field) and its queries run; otherwise it grows by the user message only; exactly one request is issued for a known selector; new buttons are keyed with the position the assistant message takes; for a known selector and a reply with content, the actions are the user bubble, the prompt, the assistant bubble and then exactly what `display_content(content)` renders, whose active suggestion is the result's; a set active suggestion is never cleared |
| Orchestrator.ExchangeKeepsLogWellFormed | analyst_winter_game.py:56-68 | one exchange, whether it completes or raises, keeps every user message a single text block and every assistant message directly after a user message |
| Orchestrator.ReplayRendersAsFirstShown | analyst_winter_game.py:63-72 | an assistant message renders on every later replay exactly as when first shown: the actions of the exchange that appended it are the three prefix actions followed by the replay's rendering of it at its position, and any other click or active suggestion gives the same rendering for both display calls |
| Orchestrator.FirstMessageIgnoresIndex | analyst_winter_game.py:72 | in a well-formed log the first message renders as its text whatever index 0 is turned into |
| Orchestrator.ServerErrorLeavesPromptOnly | analyst_winter_game.py:51-68 | a status-500 reply raises `RequestFailed(500, ...)` and leaves the log with the prompt appended and no answer |
| Orchestrator.ExchangeKeysDistinct | analyst_winter_game.py:63-67 | the buttons one exchange renders carry distinct keys when the reply has at most one suggestions block |
| Session.Bootstrap | analyst_winter_game.py:122-125 | the first run starts with an empty log, no suggestions and no active suggestion; later runs keep the state |
| Session.ShowMessage | analyst_winter_game.py:127-129 | a stored message is shown with buttons keyed by `message_index or len(messages)`; it raises exactly when one of its queries fails; a click elsewhere keeps the active suggestion |
| Session.ShowMessageBubble | analyst_winter_game.py:128 | the first thing shown for a stored message is the chat bubble of its role |
| Session.ShowMessageKeysDistinct | analyst_winter_game.py:127-129 | a stored message with at most one suggestions block shows buttons with distinct keys |
| Session.Replay | analyst_winter_game.py:127-129 | the i-th display call uses index `(from + i) or len(messages)`; the replay completes without raising exactly when every remaining message's stored queries run, and a completed replay made one display call per remaining message |
| Session.FirstFailure | analyst_winter_game.py:127-129 | the first position from `from` on whose stored queries fail, or the log length; every position before it runs its queries |
| Session.ReplayStep | analyst_winter_game.py:127-129 | one step of the loop: the first remaining message raises exactly when its queries fail, after one display call; otherwise the loop goes on with the rest, and raises exactly when the rest does |
| Session.ReplayFailureCount | analyst_winter_game.py:127-129 | a replay that raises has made one display call per message up to and including the first one whose queries fail |
| Session.ReplayStopsAtFirstFailure | analyst_winter_game.py:127-129 | a replay that raises stops at the first message whose queries fail: that message is the last one displayed and every message before it ran |
| Session.ReplayButtons | analyst_winter_game.py:127-129 | a replay from a position past 0 keys every button with an index in `[from, len(messages))`; a replay from 0 keys every button with an index in `[0, len(messages)]`, position 0 having fallen back to `len(messages)` |
| Session.TypedInput | analyst_winter_game.py:131-132 | non-empty chat input issues one request with that prompt on the "Winter Game" model; empty input changes nothing |
| Session.ConsumeSuggestion | analyst_winter_game.py:134-136 | a truthy active suggestion is sent as the prompt on the "Winter Game" model and reset to `None` only when processing returned normally; a failed exchange leaves a suggestion set, and unchanged when the click names no button of the new answer |
| Session.RaisedSuggestionResent | analyst_winter_game.py:131-136 | with a typed question whose exchange completes and a set suggestion, the run sends the question and then the suggestion, logs the question, its answer and the suggestion as a new user message, and a failed suggestion exchange leaves the suggestion set for the next run when the click names no new button |
| Session.NewExchanges | analyst_winter_game.py:131-136 | the exchanges after the replay append at most four messages, issue at most two requests on the "Winter Game" model, and leave no truthy active suggestion when they complete |
| Session.Run | analyst_winter_game.py:122-136 | the log only grows, by at most four messages; at most two requests, all on the "Winter Game" model; a run that completes leaves no truthy active suggestion |
| Session.RunKeepsLogWellFormed | analyst_winter_game.py:122-136 | a run keeps the log well-formed |
| Session.FirstRun | analyst_winter_game.py:122-125 | a first run without input renders nothing and leaves an empty state |
| Session.RunDisplayIndicesDistinct | analyst_winter_game.py:127-136 | no two display calls of one run use the same effective message index |
| Session.NewExchangesIndices | analyst_winter_game.py:131-136 | the new exchanges display at most twice, under `n + 1` and then `n + 3` for a log of length n, so under distinct indices past the replayed log |
| Session.NewExchangesButtons | analyst_winter_game.py:131-136 | the new exchanges' buttons carry indices between the log length plus one and plus three |
| Session.SuggestionLifecycle | analyst_winter_game.py:134-136 | the suggestion the replay leaves active is sent as the last prompt and cleared when the run completes; a run that raises leaves it as it was |
| Session.ReplayKeysDistinct | analyst_winter_game.py:127-129 | replayed buttons carry distinct keys when each message has at most one suggestions block |
| Session.NewExchangesKeysDistinct | analyst_winter_game.py:131-136 | when each reply holds at most one suggestions block, the buttons of the new exchanges carry distinct keys |
| Session.RunKeysDistinct | analyst_winter_game.py:127-136 | no two buttons of one run share a widget key string |
| Session.OtherMessagesMiss | analyst_winter_game.py:72 | a key built on one message's effective index names no button of another message of the log |
| Session.ReplayClickMisses | analyst_winter_game.py:127-129 | a click naming no replayed button leaves the active suggestion unchanged |
| Session.LogLengthKeyMissesReplay | analyst_winter_game.py:127-129 | in a well-formed log, a click on a key whose message index is the log length leaves the active suggestion unchanged on replay |
| Session.RaisedAnswerNeverSelected | analyst_winter_game.py:63-68 | the buttons of an answer whose rendering raised carry the next log length, and a click on any of them in the next run selects nothing |
| Session.ReplayClickSelects | analyst_winter_game.py:127-129 | clicking button i of message p's suggestions selects exactly that suggestion on replay, however many suggestion lists other messages show and whatever the messages after p do; it needs the messages before p to run and p to hold one suggestions block |

## Left out

- Page chrome (lines 103-115), the logo image and its loader (lines 16-24, 117-119): layout and file I/O with no decision logic.
- Expanders, tab titles, spinners and `st.chat_input`'s placeholder: UI presentation. Only the content-bearing calls become actions, and a one-row table is not distinguished from the data tab.
- `_snowflake.send_snow_api_request` and `json.loads`: their result is the `HttpReply` parameter. A transport exception raised inside the call is not modelled separately; it would propagate like `RequestFailed`.
- The 30 s timeout: it is recorded in the request, but timing is not modelled.
- `session.sql(...).to_pandas()`: it is modelled as a deterministic function from statement to frame shape or failure. A backend that answers differently when a replay runs the same statement again is not modelled.
- Malformed blocks, such as a `text` block without `"text"`: replies are already-decoded `Block` values, and only a missing `message.content` or a non-JSON body is modelled.
- The text of the raised exception: the error carries the status and the reply, not the formatted message.
- `st.session_state.suggestions`: it is initialised but never read, so it is only a field of the state.
- Streamlit's reaction to two widgets with one key: `ContentRenderer.TwoSuggestionBlocksShareKeys` shows that two suggestions blocks in one message produce such keys. What Streamlit then does is not modelled.
- Rendering the same stored message twice gives the same actions because every operation is a pure function; no separate lemma states it.
- Session.RunKeysDistinct: proved only for logs and replies where each message has at most one suggestions block, because two such blocks in one message do share keys.
- Session.SuggestionLifecycle: assumes the clicked key names no button beyond the current log. Streamlit reports only clicks on widgets of the previous run. Logged messages are replayed at the same positions. The buttons of an answer that raised carry the current log length and are not replayed, so a click on them selects nothing (`Session.RaisedAnswerNeverSelected`).
- Session.ConsumeSuggestion: keeps the active suggestion unchanged after a failure only when the click names no button of the new answer. Otherwise a button of that answer, rendered before the failing query, may replace it with another suggestion. Either way it stays set.
- Session.ReplayClickSelects: assumes the messages before p, and the blocks of p before the suggestions, run their queries, and that p holds one suggestions block. Otherwise the replay stops before the button, or a later button of p shares the key.
- Session.NewExchangesKeysDistinct: proved only for replies with at most one suggestions block, because two such blocks in one reply share keys.
- Concurrent sessions and session end: each session's state is a separate value, and its lifetime is outside the model.

=== FILE: assistant_client.dfy ===
/**
  The assistant client `send_message`: builds the single-message request for
  the analyst endpoint, makes one call, and classifies the reply by status.
  The network call itself is foreign: its reply is a parameter.
  */
module AssistantClient {
  import opened Wrappers
  import opened Types
  import opened Config

  const HttpMethod: string := "POST"
  const ApiPath: string := "/api/v2/cortex/analyst/message"
  const TimeoutMs: nat := 30000

  /** A `{"type": "text", "text": ...}` content element of the request. */
  datatype TextPart = TextPart(text: string)

  datatype RequestMessage = RequestMessage(role: Role, content: seq<TextPart>)

  /** A call of the analyst endpoint: method, path, JSON body and timeout. */
  datatype Request = Request(
    httpMethod: string,
    path: string,
    messages: seq<RequestMessage>,
    semanticModelFile: string,
    timeoutMs: nat)

  /** The prompt a request carries, read back from its body. */
  function PromptOf(r: Request): Option<string> {
    if |r.messages| == 1 && |r.messages[0].content| == 1 && r.messages[0].role == User
    then Some(r.messages[0].content[0].text)
    else None
  }

  /**
    The request body for a prompt and a selector key: one user message with
    one text element holding the prompt, and the staged semantic model file.
    */
  function BuildRequest(prompt: string, key: string): (r: Result<Request, Error>)
    ensures r.Success? <==> key in Files
    ensures r.Failure? ==> r.error == UnknownModel(key)
    ensures r.Success? ==> |r.value.messages| == 1 && r.value.messages[0].role == User
    ensures r.Success? ==> r.value.messages[0].content == [TextPart(prompt)]
    ensures r.Success? ==> PromptOf(r.value) == Some(prompt)
    ensures r.Success? ==>
      r.value.semanticModelFile == "@CORTEX_ANALYST_DEMO.WINTER_GAME.RAW_DATA/" + Files[key]
    ensures r.Success? ==>
      && r.value.httpMethod == "POST"
      && r.value.path == "/api/v2/cortex/analyst/message"
      && r.value.timeoutMs == 30000
  {
    var file :- SemanticModelFile(key);
    Success(Request(
      HttpMethod,
      ApiPath,
      [RequestMessage(User, [TextPart(prompt)])],
      file,
      TimeoutMs))
  }

  /** One invocation of `send_message`: the requests issued and what it returned or raised. */
  datatype Call = Call(issued: seq<Request>, outcome: Result<Response, Error>)

  /**
    `send_message(prompt, key)` given the reply the endpoint would send. An
    unknown key raises before anything is sent; otherwise exactly one request
    goes out, a status below 400 returns the decoded body and any other
    status raises with the status and the reply.
    */
  function SendMessage(prompt: string, key: string, reply: HttpReply): (c: Call)
    ensures key !in Files ==> c.issued == [] && c.outcome == Failure(UnknownModel(key))
    ensures key in Files ==> |c.issued| == 1 && Success(c.issued[0]) == BuildRequest(prompt, key)
    ensures key in Files && reply.status >= 400 ==> c.outcome == Failure(RequestFailed(reply.status, reply))
    ensures c.outcome.Success? <==> key in Files && reply.status < 400 && reply.body.Some?
    ensures c.outcome.Success? ==> c.outcome.value == reply.body.value
  {
    match BuildRequest(prompt, key)
    case Failure(e) => Call([], Failure(e))
    case Success(request) =>
      if reply.status < 400 then
        match reply.body
        case None => Call([request], Failure(MalformedJson))
        case Some(response) => Call([request], Success(response))
      else
        Call([request], Failure(RequestFailed(reply.status, reply)))
  }

  /** Scenario: the medal question on the "Winter Game" model. */
  lemma CanadaMedalsRequest()
    ensures BuildRequest("How many medals did Canada win?", "Winter Game").Success?
    ensures PromptOf(BuildRequest("How many medals did Canada win?", "Winter Game").value)
      == Some("How many medals did Canada win?")
    ensures BuildRequest("How many medals did Canada win?", "Winter Game").value.semanticModelFile
      == "@CORTEX_ANALYST_DEMO.WINTER_GAME.RAW_DATA/winter_game.yaml"
  {
    KnownSelectors();
  }
}

=== FILE: config.dfy ===
/**
  The fixed configuration of the front-end: the database, schema and stage
  holding the semantic models, and the selector table from a model name to
  its YAML file.
  */
module Config {
  import opened Wrappers
  import opened Types

  const Database: string := "CORTEX_ANALYST_DEMO"
  const Schema: string := "WINTER_GAME"
  const Stage: string := "RAW_DATA"

  /** The selector table `FILES`. */
  const Files: map<string, string> := map[
    "Winter Game" := "winter_game.yaml",
    "Winter Game Enrichi" := "winter_game_enrichi.yaml"
  ]

  /** The selector the chat logic always passes. */
  const DefaultModel: string := "Winter Game"

  /** The stage reference `@DATABASE.SCHEMA.STAGE/` the YAML files live under. */
  const StagePath: string := "@" + Database + "." + Schema + "." + Stage + "/"

  /** The stage reference spelled out. */
  lemma StagePathValue()
    ensures StagePath == "@CORTEX_ANALYST_DEMO.WINTER_GAME.RAW_DATA/"
  {
    assert "@" + Database == "@CORTEX_ANALYST_DEMO";
    assert "@" + Database + "." == "@CORTEX_ANALYST_DEMO.";
    assert "@" + Database + "." + Schema == "@CORTEX_ANALYST_DEMO.WINTER_GAME";
    assert "@" + Database + "." + Schema + "." == "@CORTEX_ANALYST_DEMO.WINTER_GAME.";
    assert "@" + Database + "." + Schema + "." + Stage == "@CORTEX_ANALYST_DEMO.WINTER_GAME.RAW_DATA";
  }

  /**
    The `semantic_model_file` reference for a selector key: the staged path
    `@DATABASE.SCHEMA.STAGE/<file>`; a key outside the table raises KeyError.
    */
  function SemanticModelFile(key: string): (r: Result<string, Error>)
    ensures r.Success? <==> key in Files
    ensures key !in Files ==> r == Failure(UnknownModel(key))
    ensures key in Files ==> r.value == "@CORTEX_ANALYST_DEMO.WINTER_GAME.RAW_DATA/" + Files[key]
  {
    StagePathValue();
    if key in Files then Success(StagePath + Files[key])
    else Failure(UnknownModel(key))
  }

  /**
    The two configured selectors resolve to their staged YAML files; the
    lookup is exact, so a differently cased name is not a selector.
    */
  lemma KnownSelectors()
    ensures SemanticModelFile("Winter Game")
      == Success("@CORTEX_ANALYST_DEMO.WINTER_GAME.RAW_DATA/winter_game.yaml")
    ensures SemanticModelFile("Winter Game Enrichi")
      == Success("@CORTEX_ANALYST_DEMO.WINTER_GAME.RAW_DATA/winter_game_enrichi.yaml")
    ensures SemanticModelFile("winter game") == Failure(UnknownModel("winter game"))
  {
    assert Files["Winter Game"] == "winter_game.yaml";
    assert "@CORTEX_ANALYST_DEMO.WINTER_GAME.RAW_DATA/" + "winter_game.yaml"
      == "@CORTEX_ANALYST_DEMO.WINTER_GAME.RAW_DATA/winter_game.yaml";
    assert Files["Winter Game Enrichi"] == "winter_game_enrichi.yaml";
    assert "@CORTEX_ANALYST_DEMO.WINTER_GAME.RAW_DATA/" + "winter_game_enrichi.yaml"
      == "@CORTEX_ANALYST_DEMO.WINTER_GAME.RAW_DATA/winter_game_enrichi.yaml";
  }
}

=== FILE: content_renderer.dfy ===
/**
  The content dispatcher `display_content`: turns the blocks of one message
  into render actions, in block order, running the SQL of `sql` blocks
  against the data backend and letting a clicked suggestion button set the
  active suggestion. Streamlit calls become `Action` values.
  */
module ContentRenderer {
  import opened Wrappers
  import opened Types
  import opened WidgetKeys

  /** The frame handed to a chart: rows, plotted series, and whether the first column became the index. */
  datatype ChartData = ChartData(rows: nat, series: nat, indexedByFirstColumn: bool)

  /** What one Streamlit call puts on the page. */
  datatype Action =
    | ChatBubble(role: Role)              // st.chat_message(role)
    | Markdown(text: string)              // st.markdown(text)
    | Button(suggestion: string, key: WidgetKey) // st.button(suggestion, key=...)
    | Code(statement: string)             // st.code(statement, language="sql"), collapsed
    | Table(frame: Frame)                 // st.dataframe / the data tab
    | LineChart(data: ChartData)          // st.line_chart
    | BarChart(data: ChartData)           // st.bar_chart

  /**
    The result of rendering: the actions shown, the active suggestion after
    the button checks, and the exception that stopped rendering, if any.
    */
  datatype Rendered = Rendered(actions: seq<Action>, active: Option<string>, failure: Option<Error>)

  /** `message_index or len(messages)`: both `None` and 0 fall back to the log length. */
  function EffectiveIndex(messageIndex: Option<nat>, logLength: nat): nat {
    if messageIndex.None? || messageIndex.value == 0 then logLength else messageIndex.value
  }

  /** The frame the charts plot: indexed by its first column when it has more than one. */
  function ChartInput(f: Frame): ChartData {
    if f.cols > 1 then ChartData(f.rows, f.cols - 1, true) else ChartData(f.rows, f.cols, false)
  }

  /** The result views of a frame: data, line and bar tabs for several rows, one table otherwise. */
  function ResultViews(f: Frame): seq<Action> {
    if f.rows > 1 then [Table(f), LineChart(ChartInput(f)), BarChart(ChartInput(f))]
    else [Table(f)]
  }

  /** The buttons of a suggestion list, keyed by message index and position. */
  function SuggestionButtons(ss: seq<string>, message: nat): seq<Action> {
    seq(|ss|, i requires 0 <= i < |ss| => Button(ss[i], WidgetKey(message, i)))
  }

  /**
    The active suggestion after checking the buttons `ss[from..]` in order:
    a button whose key is the clicked one sets it to its label.
    */
  function ClickThrough(ss: seq<string>, message: nat, clicked: Option<string>, active: Option<string>, from: nat): (r: Option<string>)
    requires from <= |ss|
    ensures (forall i | from <= i < |ss| :: clicked != Some(KeyString(WidgetKey(message, i)))) ==> r == active
    ensures forall j | from <= j < |ss| :: clicked == Some(KeyString(WidgetKey(message, j))) ==> r == Some(ss[j])
    ensures active.Some? ==> r.Some?
    decreases |ss| - from
  {
    if from == |ss| then active
    else
      var next := if clicked == Some(KeyString(WidgetKey(message, from))) then Some(ss[from]) else active;
      var r := ClickThrough(ss, message, clicked, next, from + 1);
      assert forall j | from < j < |ss| :: clicked == Some(KeyString(WidgetKey(message, j))) ==>
        clicked != Some(KeyString(WidgetKey(message, from))) by {
        forall j | from < j < |ss| {
          KeyStringInjective(WidgetKey(message, j), WidgetKey(message, from));
        }
      }
      r
  }

  /** Rendering of one block, dispatched on its type. */
  function RenderBlock(b: Block, index: nat, clicked: Option<string>, active: Option<string>, db: Database): Rendered {
    match b
    case Text(t) => Rendered([Markdown(t)], active, None)
    case Suggestions(ss) =>
      Rendered(SuggestionButtons(ss, index), ClickThrough(ss, index, clicked, active, 0), None)
    case Sql(statement) =>
      (match db(statement)
       case QueryError => Rendered([Code(statement)], active, Some(QueryFailed(statement)))
       case Rows(f) => Rendered([Code(statement)] + ResultViews(f), active, None))
    case Other(_) => Rendered([], active, None)
  }

  /**
    The dispatch of one block: only an SQL block whose query fails raises,
    only a suggestions block can add buttons or change the active
    suggestion, an SQL block shows its statement first, and a text block
    shows its markdown.
    */
  lemma RenderBlockDispatch(b: Block, index: nat, clicked: Option<string>, active: Option<string>, db: Database)
    ensures var r := RenderBlock(b, index, clicked, active, db);
      && (r.failure.Some? <==> b.Sql? && db(b.statement).QueryError?)
      && (r.failure.Some? ==> r.failure == Some(QueryFailed(b.statement)))
      && (!b.Suggestions? ==> r.active == active && NoButtons(r.actions))
      && ButtonsOf(r.actions, index)
      && (b.Sql? ==> |r.actions| >= 1 && r.actions[0] == Code(b.statement))
      && (b.Text? ==> r.actions == [Markdown(b.text)])
  {
  }

  /** Every SQL statement among the blocks executes. */
  ghost predicate QueriesSucceed(blocks: seq<Block>, db: Database) {
    forall i | 0 <= i < |blocks| && blocks[i].Sql? :: db(blocks[i].statement).Rows?
  }

  /** Every button among the actions is keyed with the given message index. */
  ghost predicate ButtonsOf(actions: seq<Action>, index: nat) {
    forall i | 0 <= i < |actions| && actions[i].Button? :: actions[i].key.message == index
  }

  /** No two buttons among the actions share a key. */
  ghost predicate DistinctKeys(actions: seq<Action>) {
    forall p, q | 0 <= p < q < |actions| && actions[p].Button? && actions[q].Button? ::
      actions[p].key != actions[q].key
  }

  /** Every button among the actions is keyed with a message index in `[lo, hi)`. */
  ghost predicate ButtonsIn(actions: seq<Action>, lo: nat, hi: nat) {
    forall i | 0 <= i < |actions| && actions[i].Button? :: lo <= actions[i].key.message < hi
  }

  /** No action is a button. */
  ghost predicate NoButtons(actions: seq<Action>) {
    forall i | 0 <= i < |actions| :: !actions[i].Button?
  }

  /** The clicked key names no button of the given message index. */
  ghost predicate ClickMisses(clicked: Option<string>, index: nat) {
    forall i: nat :: clicked != Some(KeyString(WidgetKey(index, i)))
  }

  /** A message's content holds at most one suggestions block. */
  predicate SingleSuggestionBlock(blocks: seq<Block>) {
    forall p, q | 0 <= p < q < |blocks| && blocks[p].Suggestions? :: !blocks[q].Suggestions?
  }

  /**
    The loop `for item in content` with the effective message index already
    computed: block groups in order, stopping at the first failing query.
    */
  function RenderBlocks(blocks: seq<Block>, index: nat, clicked: Option<string>, active: Option<string>, db: Database): (r: Rendered)
    ensures |blocks| == 0 ==> r == Rendered([], active, None)
    ensures r.failure.None? <==> QueriesSucceed(blocks, db)
    ensures ButtonsOf(r.actions, index)
    ensures ClickMisses(clicked, index) ==> r.active == active
    ensures (forall i | 0 <= i < |blocks| :: !blocks[i].Suggestions?) ==> NoButtons(r.actions) && r.active == active
    decreases |blocks|
  {
    if |blocks| == 0 then Rendered([], active, None)
    else
      var head := RenderBlock(blocks[0], index, clicked, active, db);
      if head.failure.Some? then head
      else
        var tail := RenderBlocks(blocks[1..], index, clicked, head.active, db);
        Rendered(head.actions + tail.actions, tail.active, tail.failure)
  }

  /** A rendering that raises raises the failure of one of its SQL blocks. */
  lemma {:induction false} RenderFailureCause(blocks: seq<Block>, index: nat, clicked: Option<string>, active: Option<string>, db: Database)
    ensures var r := RenderBlocks(blocks, index, clicked, active, db);
      r.failure.Some? ==>
        exists i | 0 <= i < |blocks| && blocks[i].Sql? ::
          db(blocks[i].statement).QueryError? && r.failure == Some(QueryFailed(blocks[i].statement))
    decreases |blocks|
  {
    if |blocks| > 0 {
      var head := RenderBlock(blocks[0], index, clicked, active, db);
      if head.failure.None? {
        RenderFailureCause(blocks[1..], index, clicked, head.active, db);
        var tail := blocks[1..];
        assert forall i | 0 <= i < |tail| :: tail[i] == blocks[i + 1];
      }
    }
  }

  /**
    Rendering never clears a set active suggestion: a button can only set
    it to one of the suggestions among the blocks.
    */
  lemma {:induction false} RenderKeepsSelection(blocks: seq<Block>, index: nat, clicked: Option<string>, active: Option<string>, db: Database)
    ensures active.Some? ==> RenderBlocks(blocks, index, clicked, active, db).active.Some?
    ensures var r := RenderBlocks(blocks, index, clicked, active, db);
      r.active == active || exists b, j | 0 <= b < |blocks| && blocks[b].Suggestions? && 0 <= j < |blocks[b].suggestions| ::
        r.active == Some(blocks[b].suggestions[j])
    decreases |blocks|
  {
    if |blocks| > 0 {
      var head := RenderBlock(blocks[0], index, clicked, active, db);
      if head.failure.None? {
        RenderKeepsSelection(blocks[1..], index, clicked, head.active, db);
        var tail := blocks[1..];
        assert forall b | 0 <= b < |tail| :: tail[b] == blocks[b + 1];
      }
      if blocks[0].Suggestions? && head.active != active {
        var ss := blocks[0].suggestions;
        var j :| 0 <= j < |ss| && clicked == Some(KeyString(WidgetKey(index, j)));
        assert head.active == Some(ss[j]);
      }
    }
  }

  /**
    `display_content(content, message_index)` with `len(messages)` passed in:
    renders the blocks under the effective index.
    */
  function DisplayContent(content: seq<Block>, messageIndex: Option<nat>, logLength: nat, clicked: Option<string>, active: Option<string>, db: Database): (r: Rendered)
    ensures messageIndex.Some? && messageIndex.value > 0 ==> ButtonsOf(r.actions, messageIndex.value)
    ensures messageIndex.None? || messageIndex == Some(0) ==> ButtonsOf(r.actions, logLength)
    ensures r.failure.None? <==> QueriesSucceed(content, db)
    ensures active.Some? ==> r.active.Some?
  {
    RenderKeepsSelection(content, EffectiveIndex(messageIndex, logLength), clicked, active, db);
    RenderBlocks(content, EffectiveIndex(messageIndex, logLength), clicked, active, db)
  }

  /**
    Rendering a concatenation renders the first part, then, unless it
    failed, the second part from where the first left the active suggestion.
    */
  lemma {:induction false} RenderConcat(a: seq<Block>, b: seq<Block>, index: nat, clicked: Option<string>, active: Option<string>, db: Database)
    ensures var ra := RenderBlocks(a, index, clicked, active, db);
      RenderBlocks(a + b, index, clicked, active, db)
        == if ra.failure.Some? then ra
           else
             var rb := RenderBlocks(b, index, clicked, ra.active, db);
             Rendered(ra.actions + rb.actions, rb.active, rb.failure)
    decreases |a|
  {
    if |a| == 0 {
      assert a + b == b;
    } else {
      assert (a + b)[0] == a[0];
      assert (a + b)[1..] == a[1..] + b;
      var head := RenderBlock(a[0], index, clicked, active, db);
      if head.failure.None? {
        RenderConcat(a[1..], b, index, clicked, head.active, db);
        var ra' := RenderBlocks(a[1..], index, clicked, head.active, db);
        if ra'.failure.None? {
          var rb := RenderBlocks(b, index, clicked, ra'.active, db);
          assert head.actions + (ra'.actions + rb.actions) == (head.actions + ra'.actions) + rb.actions;
        }
      }
    }
  }

  /** A text block renders as its markdown; a block of unhandled type renders nothing. */
  lemma TextAndUnknownBlocks(t: string, kind: string, index: nat, clicked: Option<string>, active: Option<string>, db: Database)
    requires UnhandledKind(kind)
    ensures RenderBlocks([Text(t)], index, clicked, active, db) == Rendered([Markdown(t)], active, None)
    ensures RenderBlocks([Other(kind)], index, clicked, active, db) == Rendered([], active, None)
  {
  }

  /** A suggestions block renders one button per suggestion, in order, keyed `index_i`. */
  lemma SuggestionBlock(ss: seq<string>, index: nat, clicked: Option<string>, active: Option<string>, db: Database)
    ensures var r := RenderBlocks([Suggestions(ss)], index, clicked, active, db);
      && r.failure.None?
      && |r.actions| == |ss|
      && forall i | 0 <= i < |ss| :: r.actions[i] == Button(ss[i], WidgetKey(index, i))
  {
  }

  /**
    Clicking button `j` of a suggestion list sets the active suggestion to
    exactly `ss[j]`, whatever it was before.
    */
  lemma ClickSelectsSuggestion(ss: seq<string>, index: nat, j: nat, active: Option<string>, db: Database)
    requires j < |ss|
    ensures RenderBlocks([Suggestions(ss)], index, Some(KeyString(WidgetKey(index, j))), active, db).active
      == Some(ss[j])
  {
  }

  /**
    An SQL block shows its statement, then runs it: a failing query stops
    rendering; several rows give a table, a line chart and a bar chart, the
    charts indexed by the first column exactly when there are several
    columns; zero or one row give a single table.
    */
  lemma SqlBlockViews(statement: string, index: nat, clicked: Option<string>, active: Option<string>, db: Database)
    ensures var r := RenderBlocks([Sql(statement)], index, clicked, active, db);
      && r.active == active
      && |r.actions| >= 1 && r.actions[0] == Code(statement)
      && (db(statement).QueryError? ==> r.actions == [Code(statement)] && r.failure == Some(QueryFailed(statement)))
      && (db(statement).Rows? ==> r.failure.None?)
      && (db(statement).Rows? && db(statement).frame.rows <= 1 ==>
            r.actions == [Code(statement), Table(db(statement).frame)])
      && (db(statement).Rows? && db(statement).frame.rows > 1 ==>
            var f := db(statement).frame;
            && |r.actions| == 4
            && r.actions[1] == Table(f)
            && r.actions[2].LineChart? && r.actions[3].BarChart?
            && r.actions[2].data == r.actions[3].data
            && r.actions[2].data.rows == f.rows
            && (r.actions[2].data.indexedByFirstColumn <==> f.cols > 1)
            && r.actions[2].data.series == (if f.cols > 1 then f.cols - 1 else f.cols))
  {
  }

  /** Keys of two action lists that share no key stay distinct when concatenated. */
  lemma DistinctConcat(a: seq<Action>, b: seq<Action>)
    requires DistinctKeys(a) && DistinctKeys(b)
    requires forall p, q | 0 <= p < |a| && 0 <= q < |b| && a[p].Button? && b[q].Button? :: a[p].key != b[q].key
    ensures DistinctKeys(a + b)
  {
    var c := a + b;
    forall p, q | 0 <= p < q < |c| && c[p].Button? && c[q].Button?
      ensures c[p].key != c[q].key
    {
      if q < |a| {
        assert c[p] == a[p] && c[q] == a[q];
      } else if p >= |a| {
        assert c[p] == b[p - |a|] && c[q] == b[q - |a|];
      } else {
        assert c[p] == a[p] && c[q] == b[q - |a|];
      }
    }
  }

  /** With at most one suggestions block, the buttons of one message have distinct keys. */
  lemma {:induction false} RenderKeysDistinct(blocks: seq<Block>, index: nat, clicked: Option<string>, active: Option<string>, db: Database)
    requires SingleSuggestionBlock(blocks)
    ensures DistinctKeys(RenderBlocks(blocks, index, clicked, active, db).actions)
    decreases |blocks|
  {
    if |blocks| > 0 {
      var head := RenderBlock(blocks[0], index, clicked, active, db);
      if head.failure.None? {
        var rest := blocks[1..];
        assert SingleSuggestionBlock(rest) by {
          forall p, q | 0 <= p < q < |rest| && rest[p].Suggestions?
            ensures !rest[q].Suggestions?
          {
            assert rest[p] == blocks[p + 1] && rest[q] == blocks[q + 1];
          }
        }
        RenderKeysDistinct(rest, index, clicked, head.active, db);
        var tail := RenderBlocks(rest, index, clicked, head.active, db);
        if blocks[0].Suggestions? {
          assert forall i | 0 <= i < |rest| :: !rest[i].Suggestions? by {
            forall i | 0 <= i < |rest|
              ensures !rest[i].Suggestions?
            {
              assert rest[i] == blocks[i + 1];
            }
          }
          assert NoButtons(tail.actions);
        } else {
          assert NoButtons(head.actions);
        }
        DistinctConcat(head.actions, tail.actions);
      }
    }
  }

  /**
    Two suggestions blocks in one message produce buttons with the same key:
    the key is built from the message and the position within its list only.
    */
  lemma TwoSuggestionBlocksShareKeys(index: nat, db: Database)
    ensures var r := RenderBlocks([Suggestions(["a"]), Suggestions(["b"])], index, None, None, db);
      && r.actions == [Button("a", WidgetKey(index, 0)), Button("b", WidgetKey(index, 0))]
      && !DistinctKeys(r.actions)
  {
    var blocks := [Suggestions(["a"]), Suggestions(["b"])];
    assert blocks[1..] == [Suggestions(["b"])];
    assert blocks[1..][1..] == [];
    var r := RenderBlocks(blocks, index, None, None, db);
    assert r.actions[0].key == r.actions[1].key;
  }

  /** A text answer followed by a one-row query: markdown, the SQL excerpt, one table. */
  lemma SingleRowAnswer(index: nat, clicked: Option<string>, active: Option<string>, db: Database)
    requires db("SELECT 1").Rows? && db("SELECT 1").frame.rows == 1
    ensures RenderBlocks([Text("Here is the result"), Sql("SELECT 1")], index, clicked, active, db)
      == Rendered([Markdown("Here is the result"), Code("SELECT 1"), Table(db("SELECT 1").frame)], active, None)
  {
    RenderConcat([Text("Here is the result")], [Sql("SELECT 1")], index, clicked, active, db);
    assert [Text("Here is the result")] + [Sql("SELECT 1")] == [Text("Here is the result"), Sql("SELECT 1")];
    TextAndUnknownBlocks("Here is the result", "", index, clicked, active, db);
    SqlBlockViews("SELECT 1", index, clicked, active, db);
  }

  /**
    Clicking button `i` of the one suggestions block of a message sets the
    active suggestion to that suggestion, whatever the blocks after it do:
    the selection is made before a later failing query raises.
    */
  lemma {:induction false} RenderClickSelects(blocks: seq<Block>, b: nat, i: nat, index: nat, active: Option<string>, db: Database)
    requires b < |blocks| && blocks[b].Suggestions? && i < |blocks[b].suggestions|
    requires SingleSuggestionBlock(blocks) && QueriesSucceed(blocks[..b], db)
    ensures RenderBlocks(blocks, index, Some(KeyString(WidgetKey(index, i))), active, db).active
      == Some(blocks[b].suggestions[i])
    decreases |blocks|
  {
    var clicked := Some(KeyString(WidgetKey(index, i)));
    var rest := blocks[1..];
    assert forall q | 0 <= q < |rest| :: rest[q] == blocks[q + 1];
    var head := RenderBlock(blocks[0], index, clicked, active, db);
    if b == 0 {
      assert forall q | 0 <= q < |rest| :: !rest[q].Suggestions?;
      assert head.active == Some(blocks[0].suggestions[i]);
    } else {
      assert blocks[..b][0] == blocks[0];
      assert head.failure.None?;
      assert !blocks[0].Suggestions?;
      assert rest[..b - 1] == blocks[1..b];
      assert QueriesSucceed(rest[..b - 1], db) by {
        forall q | 0 <= q < b - 1 && rest[q].Sql?
          ensures db(rest[q].statement).Rows?
        {
          assert blocks[..b][q + 1] == rest[q];
        }
      }
      assert SingleSuggestionBlock(rest) by {
        forall p, q | 0 <= p < q < |rest| && rest[p].Suggestions?
          ensures !rest[q].Suggestions?
        {
          assert blocks[p + 1].Suggestions?;
        }
      }
      RenderClickSelects(rest, b - 1, i, index, head.active, db);
    }
  }
}

=== FILE: orchestrator.dfy ===
/**
  The message orchestrator `process_message`: appends the user message,
  calls the assistant, renders the reply, and only then appends the
  assistant message. An exception anywhere after the first append leaves
  the log one message longer and nothing else appended.
  */
module Orchestrator {
  import opened Wrappers
  import opened Types
  import opened Config
  import opened AssistantClient
  import opened ContentRenderer

  /**
    One call of `process_message`: the log and active suggestion it leaves,
    the actions it rendered, the requests it issued, the effective index of
    its `display_content` call (if it got that far) and the exception it
    raised, if any.
    */
  datatype Exchange = Exchange(
    log: seq<Message>,
    active: Option<string>,
    actions: seq<Action>,
    requests: seq<Request>,
    displayed: seq<nat>,
    failure: Option<Error>)

  /** The message a prompt is logged as. */
  function UserMessage(prompt: string): Message {
    Message(User, [Text(prompt)])
  }

  /**
    The shape every log built by `process_message` has: user messages hold
    one text block, and each assistant message directly follows a user one.
    */
  ghost predicate WellFormedLog(log: seq<Message>) {
    && (forall i | 0 <= i < |log| && log[i].role == User ::
          |log[i].content| == 1 && log[i].content[0].Text?)
    && (forall i | 0 <= i < |log| && log[i].role == Assistant ::
          i > 0 && log[i - 1].role == User)
  }

  /** The content the reply carries in `response["message"]["content"]`, if any. */
  function ReplyContent(reply: HttpReply): Option<seq<Block>> {
    if reply.status < 400 && reply.body.Some? then reply.body.value.messageContent else None
  }

  /**
    `process_message(prompt, key)` on the log `log`, given the endpoint's
    reply, the clicked widget key and the data backend.
    */
  function ProcessMessage(
    log: seq<Message>, active: Option<string>, prompt: string, key: string,
    reply: HttpReply, clicked: Option<string>, db: Database): (r: Exchange)
    ensures r.failure.Some? ==> r.log == log + [Message(User, [Text(prompt)])]
    ensures r.failure.None? <==>
      key in Files && ReplyContent(reply).Some? && QueriesSucceed(ReplyContent(reply).value, db)
    ensures r.failure.None? ==>
      r.log == log + [Message(User, [Text(prompt)]), Message(Assistant, ReplyContent(reply).value)]
    ensures key !in Files ==> r.requests == [] && r.failure == Some(UnknownModel(key))
    ensures key in Files ==> |r.requests| == 1 && BuildRequest(prompt, key) == Success(r.requests[0])
    ensures key in Files && reply.status >= 400 ==> r.failure == Some(RequestFailed(reply.status, reply))
    ensures [ChatBubble(User), Markdown(prompt), ChatBubble(Assistant)] <= r.actions
    ensures ButtonsOf(r.actions, |log| + 1)
    ensures |r.displayed| <= 1 && forall d | d in r.displayed :: d == |log| + 1
    ensures r.failure.None? ==> r.displayed == [|log| + 1]
    ensures ClickMisses(clicked, |log| + 1) ==> r.active == active
    ensures active.Some? ==> r.active.Some?
    ensures key in Files && ReplyContent(reply).Some? ==>
      var shown := DisplayContent(ReplyContent(reply).value, None, |log| + 1, clicked, active, db);
      && r.actions == [ChatBubble(User), Markdown(prompt), ChatBubble(Assistant)] + shown.actions
      && r.active == shown.active
  {
    var logged := log + [UserMessage(prompt)];
    var shown := [ChatBubble(User), Markdown(prompt), ChatBubble(Assistant)];
    var call := SendMessage(prompt, key, reply);
    if call.outcome.Failure? then
      Exchange(logged, active, shown, call.issued, [], Some(call.outcome.error))
    else if call.outcome.value.messageContent.None? then
      Exchange(logged, active, shown, call.issued, [], Some(MissingContent))
    else
      var content := call.outcome.value.messageContent.value;
      var rendered := DisplayContent(content, None, |logged|, clicked, active, db);
      var actions := shown + rendered.actions;
      assert ButtonsOf(actions, |logged|) by {
        assert forall i | 0 <= i < |rendered.actions| :: actions[i + 3] == rendered.actions[i];
      }
      var answered := if rendered.failure.None? then logged + [Message(Assistant, content)] else logged;
      Exchange(answered, rendered.active, actions, call.issued, [|logged|], rendered.failure)
  }

  /** An exchange keeps a well-formed log well-formed. */
  lemma ExchangeKeepsLogWellFormed(
    log: seq<Message>, active: Option<string>, prompt: string, key: string,
    reply: HttpReply, clicked: Option<string>, db: Database)
    requires WellFormedLog(log)
    ensures WellFormedLog(ProcessMessage(log, active, prompt, key, reply, clicked, db).log)
  {
    var r := ProcessMessage(log, active, prompt, key, reply, clicked, db);
    var n := |log|;
    assert r.log[n] == UserMessage(prompt);
    assert forall i | 0 <= i < n :: r.log[i] == log[i];
  }

  /**
    The buttons an assistant message gets when first shown are the ones it
    gets whenever a later log containing it is replayed: the effective index
    it was displayed with is the position it was appended at.
    */
  lemma ReplayRendersAsFirstShown(
    log: seq<Message>, active: Option<string>, prompt: string, key: string,
    reply: HttpReply, clicked: Option<string>, db: Database,
    later: seq<Message>, clicked': Option<string>, active': Option<string>)
    requires ProcessMessage(log, active, prompt, key, reply, clicked, db).failure.None?
    requires ProcessMessage(log, active, prompt, key, reply, clicked, db).log <= later
    ensures |log| + 1 < |later|
    ensures later[|log| + 1] == Message(Assistant, ReplyContent(reply).value)
    ensures DisplayContent(later[|log| + 1].content, Some(|log| + 1), |later|, clicked', active', db)
      == DisplayContent(ReplyContent(reply).value, None, |log| + 1, clicked', active', db)
    ensures ProcessMessage(log, active, prompt, key, reply, clicked, db).actions
      == [ChatBubble(User), Markdown(prompt), ChatBubble(Assistant)]
         + DisplayContent(later[|log| + 1].content, Some(|log| + 1), |later|, clicked, active, db).actions
  {
  }

  /**
    In a well-formed log, the first message renders as its text whatever
    `message_index or len(messages)` turns index 0 into.
    */
  lemma FirstMessageIgnoresIndex(log: seq<Message>, logLength: nat, clicked: Option<string>, active: Option<string>, db: Database)
    requires WellFormedLog(log) && |log| > 0
    ensures DisplayContent(log[0].content, Some(0), logLength, clicked, active, db)
      == Rendered([Markdown(log[0].content[0].text)], active, None)
  {
    assert log[0].role == User;
    assert log[0].content == [Text(log[0].content[0].text)];
    TextAndUnknownBlocks(log[0].content[0].text, "", logLength, clicked, active, db);
  }

  /** A 500 reply raises and leaves the prompt logged without an answer. */
  lemma ServerErrorLeavesPromptOnly(log: seq<Message>, active: Option<string>, prompt: string, body: Option<Response>, clicked: Option<string>, db: Database)
    ensures var reply := HttpReply(500, body);
      var r := ProcessMessage(log, active, prompt, DefaultModel, reply, clicked, db);
      && r.failure == Some(RequestFailed(500, reply))
      && r.log == log + [Message(User, [Text(prompt)])]
      && r.active == active
  {
    KnownSelectors();
  }

  /** A reply whose content, if any, holds at most one suggestions block. */
  ghost predicate SingleSuggestionReply(reply: HttpReply) {
    ReplyContent(reply).Some? ==> SingleSuggestionBlock(ReplyContent(reply).value)
  }

  /** The buttons one exchange renders carry distinct keys. */
  lemma ExchangeKeysDistinct(
    log: seq<Message>, active: Option<string>, prompt: string, key: string,
    reply: HttpReply, clicked: Option<string>, db: Database)
    requires SingleSuggestionReply(reply)
    ensures DistinctKeys(ProcessMessage(log, active, prompt, key, reply, clicked, db).actions)
  {
    var call := SendMessage(prompt, key, reply);
    if call.outcome.Success? && call.outcome.value.messageContent.Some? {
      var content := call.outcome.value.messageContent.value;
      RenderKeysDistinct(content, |log| + 1, clicked, active, db);
      var rendered := DisplayContent(content, None, |log| + 1, clicked, active, db);
      DistinctConcat([ChatBubble(User), Markdown(prompt), ChatBubble(Assistant)], rendered.actions);
    }
  }
}

=== FILE: session.dfy ===
/**
  One execution of the Streamlit script's chat logic: bootstrap the session
  state, replay the log, process typed input, then consume the active
  suggestion. An exception ends the run where it is raised; the session
  state keeps every mutation made before it.
  */
module Session {
  import opened Wrappers
  import opened Types
  import opened Config
  import opened WidgetKeys
  import opened AssistantClient
  import opened ContentRenderer
  import opened Orchestrator

  /** `st.session_state` as the chat logic uses it. */
  datatype SessionState = SessionState(
    messages: seq<Message>,
    suggestions: seq<string>,
    activeSuggestion: Option<string>)

  /**
    What triggered the run: the text submitted in the chat input, if any,
    and the key of the button clicked in the previous run, if any.
    */
  datatype Interaction = Interaction(chatInput: Option<string>, clicked: Option<string>)

  /** The collaborators of one run: the endpoint's replies to the two possible requests, and the data backend. */
  datatype Backend = Backend(typedReply: HttpReply, suggestionReply: HttpReply, db: Database)

  /**
    The result of a run, or of one part of it: the session state left, the
    actions rendered, the requests issued, the effective message index of
    every `display_content` call in order, and the exception that ended it.
    */
  datatype RunOutcome = RunOutcome(
    state: SessionState,
    actions: seq<Action>,
    requests: seq<Request>,
    displayed: seq<nat>,
    failure: Option<Error>)

  /** The replay of `messages[from..]`, as a part of a run. */
  datatype Replayed = Replayed(actions: seq<Action>, active: Option<string>, displayed: seq<nat>, failure: Option<Error>)

  /** The semantic model file every exchange of the chat logic sends its prompt with. */
  const WinterGameFile: string := "@CORTEX_ANALYST_DEMO.WINTER_GAME.RAW_DATA/winter_game.yaml"

  /** Every request carries a prompt and targets the "Winter Game" model. */
  ghost predicate OnWinterGame(requests: seq<Request>) {
    forall i | 0 <= i < |requests| ::
      requests[i].semanticModelFile == WinterGameFile && PromptOf(requests[i]).Some?
  }

  /** Two request lists on the "Winter Game" model stay so when joined. */
  lemma OnWinterGameConcat(a: seq<Request>, b: seq<Request>)
    requires OnWinterGame(a) && OnWinterGame(b)
    ensures OnWinterGame(a + b)
  {
    assert forall i | 0 <= i < |b| :: (a + b)[|a| + i] == b[i];
  }

  /** The session state is created empty on first access and kept afterwards. */
  function Bootstrap(prior: Option<SessionState>): (s: SessionState)
    ensures prior.None? ==> s.messages == [] && s.suggestions == [] && s.activeSuggestion == None
    ensures prior.Some? ==> s == prior.value
  {
    match prior
    case None => SessionState([], [], None)
    case Some(state) => state
  }

  /**
    One iteration of the replay loop: message `p` in its bubble, rendered
    under `message_index or len(messages)`.
    */
  function ShowMessage(messages: seq<Message>, p: nat, clicked: Option<string>, active: Option<string>, db: Database): (r: Rendered)
    requires p < |messages|
    ensures ButtonsOf(r.actions, EffectiveIndex(Some(p), |messages|))
    ensures r.failure.None? <==> QueriesSucceed(messages[p].content, db)
    ensures ClickMisses(clicked, EffectiveIndex(Some(p), |messages|)) ==> r.active == active
  {
    var shown := DisplayContent(messages[p].content, Some(p), |messages|, clicked, active, db);
    var actions := [ChatBubble(messages[p].role)] + shown.actions;
    assert forall i | 0 <= i < |shown.actions| :: actions[i + 1] == shown.actions[i];
    Rendered(actions, shown.active, shown.failure)
  }

  /** A stored message with at most one suggestions block shows buttons with distinct keys. */
  lemma ShowMessageKeysDistinct(messages: seq<Message>, p: nat, clicked: Option<string>, active: Option<string>, db: Database)
    requires p < |messages| && SingleSuggestionBlock(messages[p].content)
    ensures DistinctKeys(ShowMessage(messages, p, clicked, active, db).actions)
  {
    var index := EffectiveIndex(Some(p), |messages|);
    var shown := DisplayContent(messages[p].content, Some(p), |messages|, clicked, active, db);
    RenderKeysDistinct(messages[p].content, index, clicked, active, db);
    DistinctConcat([ChatBubble(messages[p].role)], shown.actions);
  }

  /** A stored message is shown in the chat bubble of its role, before its content. */
  lemma ShowMessageBubble(messages: seq<Message>, p: nat, clicked: Option<string>, active: Option<string>, db: Database)
    requires p < |messages|
    ensures var r := ShowMessage(messages, p, clicked, active, db);
      |r.actions| >= 1 && r.actions[0] == ChatBubble(messages[p].role)
  {
  }

  /**
    The loop over `enumerate(messages)` from position `from`: each message
    in its bubble, rendered under `message_index or len(messages)`.
    */
  function Replay(messages: seq<Message>, from: nat, clicked: Option<string>, active: Option<string>, db: Database): (r: Replayed)
    requires from <= |messages|
    ensures |r.displayed| <= |messages| - from
    ensures r.failure.None? ==> |r.displayed| == |messages| - from
    ensures forall i | 0 <= i < |r.displayed| :: r.displayed[i] == EffectiveIndex(Some(from + i), |messages|)
    ensures r.failure.None? <==> forall i | from <= i < |messages| :: QueriesSucceed(messages[i].content, db)
    decreases |messages| - from
  {
    if from == |messages| then Replayed([], active, [], None)
    else
      var index := EffectiveIndex(Some(from), |messages|);
      var head := ShowMessage(messages, from, clicked, active, db);
      if head.failure.Some? then
        assert !QueriesSucceed(messages[from].content, db);
        Replayed(head.actions, head.active, [index], head.failure)
      else
        var rest := Replay(messages, from + 1, clicked, head.active, db);
        assert rest.failure.None? <==> forall i | from <= i < |messages| :: QueriesSucceed(messages[i].content, db) by {
          assert QueriesSucceed(messages[from].content, db);
        }
        var actions := head.actions + rest.actions;
        var displayed := [index] + rest.displayed;
        assert forall i | 0 <= i < |displayed| :: displayed[i] == EffectiveIndex(Some(from + i), |messages|) by {
          forall i | 0 <= i < |displayed|
            ensures displayed[i] == EffectiveIndex(Some(from + i), |messages|)
          {
            if i > 0 {
              assert displayed[i] == rest.displayed[i - 1];
              assert from + 1 + (i - 1) == from + i;
            }
          }
        }
        Replayed(actions, rest.active, displayed, rest.failure)
  }

  /**
    The first position from `from` on whose stored queries fail, or the log
    length when they all run.
    */
  ghost function FirstFailure(messages: seq<Message>, from: nat, db: Database): (p: nat)
    requires from <= |messages|
    ensures from <= p <= |messages|
    ensures p < |messages| ==> !QueriesSucceed(messages[p].content, db)
    ensures forall k | from <= k < p :: QueriesSucceed(messages[k].content, db)
    decreases |messages| - from
  {
    if from == |messages| || !QueriesSucceed(messages[from].content, db) then from
    else FirstFailure(messages, from + 1, db)
  }

  /**
    A replay that raises stops at the first message whose queries fail: the
    last message it displayed is that one, and every earlier one ran.
    */
  lemma ReplayStopsAtFirstFailure(messages: seq<Message>, from: nat, clicked: Option<string>, active: Option<string>, db: Database)
    requires from <= |messages|
    ensures var r := Replay(messages, from, clicked, active, db);
      r.failure.Some? ==>
        && |r.displayed| >= 1
        && !QueriesSucceed(messages[from + |r.displayed| - 1].content, db)
        && forall k | from <= k < from + |r.displayed| - 1 :: QueriesSucceed(messages[k].content, db)
  {
    ReplayFailureCount(messages, from, clicked, active, db);
  }

  /** A replay that raises has displayed the messages up to and including the first failing one. */
  lemma {:induction false} ReplayFailureCount(messages: seq<Message>, from: nat, clicked: Option<string>, active: Option<string>, db: Database)
    requires from <= |messages|
    ensures var r := Replay(messages, from, clicked, active, db);
      r.failure.Some? ==> from + |r.displayed| == FirstFailure(messages, from, db) + 1
    decreases |messages| - from
  {
    if from < |messages| {
      var next := ReplayStep(messages, from, clicked, active, db);
      if QueriesSucceed(messages[from].content, db) {
        ReplayFailureCount(messages, from + 1, clicked, next, db);
      }
    }
  }

  /**
    One step of the replay: the first message raises exactly when its
    queries fail, and otherwise the rest is replayed from the active
    suggestion `next` it leaves.
    */
  lemma ReplayStep(messages: seq<Message>, from: nat, clicked: Option<string>, active: Option<string>, db: Database)
    returns (next: Option<string>)
    requires from < |messages|
    ensures var r := Replay(messages, from, clicked, active, db);
      && (!QueriesSucceed(messages[from].content, db) ==> r.failure.Some? && |r.displayed| == 1)
      && (QueriesSucceed(messages[from].content, db) ==>
            var rest := Replay(messages, from + 1, clicked, next, db);
            r.failure == rest.failure && |r.displayed| == 1 + |rest.displayed|)
  {
    next := ShowMessage(messages, from, clicked, active, db).active;
  }

  /**
    The replayed buttons carry the effective indices of their messages:
    positions from `from` on, and the log length for position 0.
    */
  lemma {:induction false} ReplayButtons(messages: seq<Message>, from: nat, clicked: Option<string>, active: Option<string>, db: Database)
    requires from <= |messages|
    ensures from > 0 ==> ButtonsIn(Replay(messages, from, clicked, active, db).actions, from, |messages|)
    ensures ButtonsIn(Replay(messages, from, clicked, active, db).actions, 0, |messages| + 1)
    decreases |messages| - from
  {
    if from < |messages| {
      var head := ShowMessage(messages, from, clicked, active, db);
      if head.failure.None? {
        ReplayButtons(messages, from + 1, clicked, head.active, db);
        var rest := Replay(messages, from + 1, clicked, head.active, db);
        var actions := head.actions + rest.actions;
        assert forall i | 0 <= i < |rest.actions| :: actions[|head.actions| + i] == rest.actions[i];
        assert forall i | 0 <= i < |head.actions| :: actions[i] == head.actions[i];
      }
    }
  }

  /** The chat input step: a non-empty chat input is processed with the "Winter Game" model. */
  function TypedInput(s: SessionState, input: Option<string>, clicked: Option<string>, reply: HttpReply, db: Database): (r: RunOutcome)
    ensures !Truthy(input) ==> r == RunOutcome(s, [], [], [], None)
    ensures Truthy(input) ==>
      && |r.requests| == 1
      && PromptOf(r.requests[0]) == Some(input.value)
      && r.requests[0].semanticModelFile == WinterGameFile
    ensures Truthy(input) ==> s.messages + [UserMessage(input.value)] <= r.state.messages
    ensures Truthy(input) && r.failure.None? ==>
      r.displayed == [|s.messages| + 1] && |r.state.messages| == |s.messages| + 2
    ensures |r.displayed| <= 1 && forall d | d in r.displayed :: d == |s.messages| + 1
    ensures ButtonsOf(r.actions, |s.messages| + 1)
    ensures ClickMisses(clicked, |s.messages| + 1) ==> r.state.activeSuggestion == s.activeSuggestion
    ensures s.messages <= r.state.messages && |r.state.messages| <= |s.messages| + 2
    ensures r.state.suggestions == s.suggestions
  {
    if Truthy(input) then
      KnownSelectors();
      var ex := ProcessMessage(s.messages, s.activeSuggestion, input.value, DefaultModel, reply, clicked, db);
      RunOutcome(s.(messages := ex.log, activeSuggestion := ex.active), ex.actions, ex.requests, ex.displayed, ex.failure)
    else
      RunOutcome(s, [], [], [], None)
  }

  /**
    The suggestion step: a truthy active suggestion is processed like typed input
    and cleared only once that processing has returned normally.
    */
  function ConsumeSuggestion(s: SessionState, clicked: Option<string>, reply: HttpReply, db: Database): (r: RunOutcome)
    ensures !Truthy(s.activeSuggestion) ==> r == RunOutcome(s, [], [], [], None)
    ensures Truthy(s.activeSuggestion) ==>
      && |r.requests| == 1
      && PromptOf(r.requests[0]) == s.activeSuggestion
      && r.requests[0].semanticModelFile == WinterGameFile
    ensures Truthy(s.activeSuggestion) ==> s.messages + [UserMessage(s.activeSuggestion.value)] <= r.state.messages
    ensures Truthy(s.activeSuggestion) && r.failure.None? ==> r.state.activeSuggestion == None
    ensures Truthy(s.activeSuggestion) && r.failure.Some? && ClickMisses(clicked, |s.messages| + 1) ==>
      r.state.activeSuggestion == s.activeSuggestion
    ensures Truthy(s.activeSuggestion) && r.failure.Some? ==> r.state.activeSuggestion.Some?
    ensures |r.displayed| <= 1 && forall d | d in r.displayed :: d == |s.messages| + 1
    ensures ButtonsOf(r.actions, |s.messages| + 1)
    ensures r.failure.None? ==> !Truthy(r.state.activeSuggestion)
    ensures s.messages <= r.state.messages && |r.state.messages| <= |s.messages| + 2
    ensures r.state.suggestions == s.suggestions
  {
    if Truthy(s.activeSuggestion) then
      KnownSelectors();
      var prompt := s.activeSuggestion.value;
      var ex := ProcessMessage(s.messages, s.activeSuggestion, prompt, DefaultModel, reply, clicked, db);
      var active := if ex.failure.None? then None else ex.active;
      RunOutcome(SessionState(ex.log, s.suggestions, active), ex.actions, ex.requests, ex.displayed, ex.failure)
    else
      RunOutcome(s, [], [], [], None)
  }

  /** No natural occurs twice in the sequence. */
  ghost predicate Distinct(xs: seq<nat>) {
    forall i, j | 0 <= i < j < |xs| :: xs[i] != xs[j]
  }

  /**
    The exchanges after the replay: typed input first, then the active
    suggestion, unless processing the typed input raised.
    */
  function NewExchanges(s: SessionState, ui: Interaction, backend: Backend): (r: RunOutcome)
    ensures s.messages <= r.state.messages && |r.state.messages| <= |s.messages| + 4
    ensures |r.requests| <= 2
    ensures OnWinterGame(r.requests)
    ensures r.failure.None? ==> !Truthy(r.state.activeSuggestion)
  {
    var typed := TypedInput(s, ui.chatInput, ui.clicked, backend.typedReply, backend.db);
    if typed.failure.Some? then typed
    else
      var next := ConsumeSuggestion(typed.state, ui.clicked, backend.suggestionReply, backend.db);
      OnWinterGameConcat(typed.requests, next.requests);
      RunOutcome(next.state, typed.actions + next.actions, typed.requests + next.requests,
        typed.displayed + next.displayed, next.failure)
  }

  /**
    A suggestion whose exchange raised stays active, so the next run sends it
    again after a newly typed question, and logs it once more as a user
    message; while the exchange keeps raising, it stays active for the run
    after that.
    */
  lemma RaisedSuggestionResent(s: SessionState, ui: Interaction, backend: Backend)
    requires Truthy(ui.chatInput) && Truthy(s.activeSuggestion)
    requires ReplyContent(backend.typedReply).Some?
    requires QueriesSucceed(ReplyContent(backend.typedReply).value, backend.db)
    requires ClickMisses(ui.clicked, |s.messages| + 1) && ClickMisses(ui.clicked, |s.messages| + 3)
    ensures var r := NewExchanges(s, ui, backend);
      && |r.requests| == 2
      && PromptOf(r.requests[0]) == Some(ui.chatInput.value)
      && PromptOf(r.requests[1]) == s.activeSuggestion
      && s.messages + [UserMessage(ui.chatInput.value), Message(Assistant, ReplyContent(backend.typedReply).value),
                       UserMessage(s.activeSuggestion.value)] <= r.state.messages
      && (r.failure.Some? ==> r.state.activeSuggestion == s.activeSuggestion)
  {
  }

  /**
    The exchanges of a run display their replies under distinct indices past
    the replayed log, and their buttons carry those indices.
    */
  lemma NewExchangesIndices(s: SessionState, ui: Interaction, backend: Backend)
    ensures var r := NewExchanges(s, ui, backend);
      && |r.displayed| <= 2
      && (forall i | 0 <= i < |r.displayed| :: r.displayed[i] == |s.messages| + 1 + 2 * i)
      && Distinct(r.displayed)
  {
    var n := |s.messages|;
    var typed := TypedInput(s, ui.chatInput, ui.clicked, backend.typedReply, backend.db);
    var r := NewExchanges(s, ui, backend);
    if typed.failure.None? {
      var m := |typed.state.messages|;
      assert typed.displayed == [] ==> m == n;
      assert typed.displayed != [] ==> m == n + 2;
      var next := ConsumeSuggestion(typed.state, ui.clicked, backend.suggestionReply, backend.db);
      assert r.displayed == typed.displayed + next.displayed;
    }
  }

  /** The buttons of a run's new exchanges carry the indices of the messages they append. */
  lemma NewExchangesButtons(s: SessionState, ui: Interaction, backend: Backend)
    ensures ButtonsIn(NewExchanges(s, ui, backend).actions, |s.messages| + 1, |s.messages| + 4)
  {
    var n := |s.messages|;
    var typed := TypedInput(s, ui.chatInput, ui.clicked, backend.typedReply, backend.db);
    assert ButtonsIn(typed.actions, n + 1, n + 4);
    if typed.failure.None? {
      var m := |typed.state.messages|;
      assert m == n || m == n + 2;
      var next := ConsumeSuggestion(typed.state, ui.clicked, backend.suggestionReply, backend.db);
      assert ButtonsOf(next.actions, m + 1);
      assert ButtonsIn(next.actions, n + 1, n + 4);
      ButtonsInConcat(typed.actions, next.actions, n + 1, n + 4);
    }
  }

  /** Two action lists whose buttons lie in one index range stay so when joined. */
  lemma ButtonsInConcat(a: seq<Action>, b: seq<Action>, lo: nat, hi: nat)
    requires ButtonsIn(a, lo, hi) && ButtonsIn(b, lo, hi)
    ensures ButtonsIn(a + b, lo, hi)
  {
    assert forall i | 0 <= i < |b| :: (a + b)[|a| + i] == b[i];
  }

  /** One run of the script's chat logic: bootstrap, replay, then the new exchanges. */
  function Run(prior: Option<SessionState>, ui: Interaction, backend: Backend): (r: RunOutcome)
    ensures Bootstrap(prior).messages <= r.state.messages
    ensures |r.state.messages| <= |Bootstrap(prior).messages| + 4
    ensures |r.requests| <= 2
    ensures OnWinterGame(r.requests)
    ensures r.failure.None? ==> !Truthy(r.state.activeSuggestion)
  {
    var s := Bootstrap(prior);
    var replay := Replay(s.messages, 0, ui.clicked, s.activeSuggestion, backend.db);
    var s1 := s.(activeSuggestion := replay.active);
    if replay.failure.Some? then
      RunOutcome(s1, replay.actions, [], replay.displayed, replay.failure)
    else
      var rest := NewExchanges(s1, ui, backend);
      RunOutcome(rest.state, replay.actions + rest.actions, rest.requests,
        replay.displayed + rest.displayed, rest.failure)
  }

  /** A run keeps a well-formed log well-formed. */
  lemma RunKeepsLogWellFormed(prior: Option<SessionState>, ui: Interaction, backend: Backend)
    requires WellFormedLog(Bootstrap(prior).messages)
    ensures WellFormedLog(Run(prior, ui, backend).state.messages)
  {
    var s := Bootstrap(prior);
    var replay := Replay(s.messages, 0, ui.clicked, s.activeSuggestion, backend.db);
    if replay.failure.None? {
      var s1 := s.(activeSuggestion := replay.active);
      if Truthy(ui.chatInput) {
        ExchangeKeepsLogWellFormed(s1.messages, s1.activeSuggestion, ui.chatInput.value, DefaultModel,
          backend.typedReply, ui.clicked, backend.db);
      }
      var typed := TypedInput(s1, ui.chatInput, ui.clicked, backend.typedReply, backend.db);
      assert WellFormedLog(typed.state.messages);
      if typed.failure.None? && Truthy(typed.state.activeSuggestion) {
        var t := typed.state;
        ExchangeKeepsLogWellFormed(t.messages, t.activeSuggestion, t.activeSuggestion.value, DefaultModel,
          backend.suggestionReply, ui.clicked, backend.db);
      }
    }
  }

  /** The first run starts from an empty log and no active suggestion; without input it changes nothing. */
  lemma FirstRun(ui: Interaction, backend: Backend)
    ensures Bootstrap(None) == SessionState([], [], None)
    ensures !Truthy(ui.chatInput) ==> Run(None, ui, backend) == RunOutcome(SessionState([], [], None), [], [], [], None)
  {
  }

  /** Joining two duplicate-free lists with no common element gives a duplicate-free list. */
  lemma DistinctAppend(a: seq<nat>, b: seq<nat>)
    requires Distinct(a) && Distinct(b)
    requires forall i, j | 0 <= i < |a| && 0 <= j < |b| :: a[i] != b[j]
    ensures Distinct(a + b)
  {
    var c := a + b;
    forall i, j | 0 <= i < j < |c|
      ensures c[i] != c[j]
    {
      if j < |a| {
        assert c[i] == a[i] && c[j] == a[j];
      } else if i >= |a| {
        assert c[i] == b[i - |a|] && c[j] == b[j - |a|];
      } else {
        assert c[i] == a[i] && c[j] == b[j - |a|];
      }
    }
  }

  /**
    Within one run, no two `display_content` calls use the same effective
    message index: the replay uses `len(messages)` for position 0 and the
    position itself elsewhere, and the new exchanges use the next free
    positions.
    */
  lemma RunDisplayIndicesDistinct(prior: Option<SessionState>, ui: Interaction, backend: Backend)
    ensures Distinct(Run(prior, ui, backend).displayed)
  {
    var s := Bootstrap(prior);
    var n := |s.messages|;
    var replay := Replay(s.messages, 0, ui.clicked, s.activeSuggestion, backend.db);
    assert Distinct(replay.displayed) by {
      forall i, j | 0 <= i < j < |replay.displayed|
        ensures replay.displayed[i] != replay.displayed[j]
      {
        assert replay.displayed[i] == EffectiveIndex(Some(i), n);
        assert replay.displayed[j] == EffectiveIndex(Some(j), n);
      }
    }
    if replay.failure.None? {
      var rest := NewExchanges(s.(activeSuggestion := replay.active), ui, backend);
      NewExchangesIndices(s.(activeSuggestion := replay.active), ui, backend);
      assert forall i | 0 <= i < |replay.displayed| :: replay.displayed[i] <= n;
      DistinctAppend(replay.displayed, rest.displayed);
    }
  }

  /** The clicked key names no button of a message beyond the current log. */
  ghost predicate ClickFromHistory(clicked: Option<string>, logLength: nat) {
    forall m: nat, i: nat | m > logLength :: clicked != Some(KeyString(WidgetKey(m, i)))
  }

  /**
    The active suggestion left by the replay is processed with its value as
    the prompt and reset to `None` only when the run completes; a run that
    raises leaves it as the replay left it.
    */
  lemma SuggestionLifecycle(prior: Option<SessionState>, ui: Interaction, backend: Backend)
    requires ClickFromHistory(ui.clicked, |Bootstrap(prior).messages|)
    ensures var s := Bootstrap(prior);
      var replayed := Replay(s.messages, 0, ui.clicked, s.activeSuggestion, backend.db).active;
      var r := Run(prior, ui, backend);
      && (r.failure.Some? ==> r.state.activeSuggestion == replayed)
      && (r.failure.None? && !Truthy(replayed) ==> r.state.activeSuggestion == replayed)
      && (r.failure.None? && Truthy(replayed) ==>
            && r.state.activeSuggestion == None
            && |r.requests| >= 1
            && PromptOf(r.requests[|r.requests| - 1]) == replayed)
  {
    var s := Bootstrap(prior);
    var n := |s.messages|;
    var replay := Replay(s.messages, 0, ui.clicked, s.activeSuggestion, backend.db);
    if replay.failure.None? {
      var s1 := s.(activeSuggestion := replay.active);
      assert ClickMisses(ui.clicked, n + 1);
      var typed := TypedInput(s1, ui.chatInput, ui.clicked, backend.typedReply, backend.db);
      if typed.failure.None? {
        assert ClickMisses(ui.clicked, |typed.state.messages| + 1);
      }
    }
  }

  /** With at most one suggestions block per message, the replay's buttons carry distinct keys. */
  lemma {:induction false} ReplayKeysDistinct(messages: seq<Message>, from: nat, clicked: Option<string>, active: Option<string>, db: Database)
    requires from <= |messages|
    requires forall q | from <= q < |messages| :: SingleSuggestionBlock(messages[q].content)
    ensures DistinctKeys(Replay(messages, from, clicked, active, db).actions)
    decreases |messages| - from
  {
    if from < |messages| {
      var r := Replay(messages, from, clicked, active, db);
      var head := ShowMessage(messages, from, clicked, active, db);
      ShowMessageKeysDistinct(messages, from, clicked, active, db);
      if head.failure.Some? {
        assert r.actions == head.actions;
      } else {
        ReplayKeysDistinct(messages, from + 1, clicked, head.active, db);
        ReplayButtons(messages, from + 1, clicked, head.active, db);
        var rest := Replay(messages, from + 1, clicked, head.active, db);
        DistinctAcross(head.actions, rest.actions, EffectiveIndex(Some(from), |messages|), from + 1, |messages|);
        assert r.actions == head.actions + rest.actions;
      }
    }
  }

  /** Buttons of one message index and buttons of an index range avoiding it never share a key. */
  lemma DistinctAcross(a: seq<Action>, b: seq<Action>, index: nat, lo: nat, hi: nat)
    requires DistinctKeys(a) && DistinctKeys(b)
    requires ButtonsOf(a, index) && ButtonsIn(b, lo, hi) && (index < lo || hi <= index)
    ensures DistinctKeys(a + b)
  {
    DistinctConcat(a, b);
  }

  /** The buttons of the exchanges after the replay carry distinct keys. */
  lemma NewExchangesKeysDistinct(s: SessionState, ui: Interaction, backend: Backend)
    requires SingleSuggestionReply(backend.typedReply) && SingleSuggestionReply(backend.suggestionReply)
    ensures DistinctKeys(NewExchanges(s, ui, backend).actions)
  {
    var typed := TypedInput(s, ui.chatInput, ui.clicked, backend.typedReply, backend.db);
    if Truthy(ui.chatInput) {
      ExchangeKeysDistinct(s.messages, s.activeSuggestion, ui.chatInput.value, DefaultModel,
        backend.typedReply, ui.clicked, backend.db);
    }
    if typed.failure.None? {
      var next := ConsumeSuggestion(typed.state, ui.clicked, backend.suggestionReply, backend.db);
      var t := typed.state;
      if Truthy(t.activeSuggestion) {
        ExchangeKeysDistinct(t.messages, t.activeSuggestion, t.activeSuggestion.value, DefaultModel,
          backend.suggestionReply, ui.clicked, backend.db);
      }
      DistinctConcat(typed.actions, next.actions);
    }
  }

  /**
    Within one run no two suggestion buttons share a widget key, provided no
    message shows more than one suggestions block.
    */
  lemma RunKeysDistinct(prior: Option<SessionState>, ui: Interaction, backend: Backend)
    requires forall q | 0 <= q < |Bootstrap(prior).messages| ::
      SingleSuggestionBlock(Bootstrap(prior).messages[q].content)
    requires SingleSuggestionReply(backend.typedReply) && SingleSuggestionReply(backend.suggestionReply)
    ensures var actions := Run(prior, ui, backend).actions;
      forall p, q | 0 <= p < q < |actions| && actions[p].Button? && actions[q].Button? ::
        KeyString(actions[p].key) != KeyString(actions[q].key)
  {
    var s := Bootstrap(prior);
    var replay := Replay(s.messages, 0, ui.clicked, s.activeSuggestion, backend.db);
    ReplayKeysDistinct(s.messages, 0, ui.clicked, s.activeSuggestion, backend.db);
    ReplayButtons(s.messages, 0, ui.clicked, s.activeSuggestion, backend.db);
    if replay.failure.None? {
      var s1 := s.(activeSuggestion := replay.active);
      NewExchangesKeysDistinct(s1, ui, backend);
      NewExchangesButtons(s1, ui, backend);
      DistinctConcat(replay.actions, NewExchanges(s1, ui, backend).actions);
    }
    var actions := Run(prior, ui, backend).actions;
    assert DistinctKeys(actions);
    forall p, q | 0 <= p < q < |actions| && actions[p].Button? && actions[q].Button?
      ensures KeyString(actions[p].key) != KeyString(actions[q].key)
    {
      KeyStringInjective(actions[p].key, actions[q].key);
    }
  }

  /** A key built on one message's effective index names no button of another message. */
  lemma OtherMessagesMiss(n: nat, p: nat, q: nat, i: nat)
    requires p < n && q < n && p != q
    ensures ClickMisses(Some(KeyString(WidgetKey(EffectiveIndex(Some(p), n), i))), EffectiveIndex(Some(q), n))
  {
    forall j: nat
      ensures Some(KeyString(WidgetKey(EffectiveIndex(Some(p), n), i)))
        != Some(KeyString(WidgetKey(EffectiveIndex(Some(q), n), j)))
    {
      KeyStringInjective(WidgetKey(EffectiveIndex(Some(p), n), i), WidgetKey(EffectiveIndex(Some(q), n), j));
    }
  }

  /** A click that names no button of the remaining messages leaves the active suggestion alone. */
  lemma {:induction false} ReplayClickMisses(messages: seq<Message>, from: nat, clicked: Option<string>, active: Option<string>, db: Database)
    requires from <= |messages|
    requires forall q | from <= q < |messages| :: ClickMisses(clicked, EffectiveIndex(Some(q), |messages|))
    ensures Replay(messages, from, clicked, active, db).active == active
    decreases |messages| - from
  {
    if from < |messages| {
      var shown := ShowMessage(messages, from, clicked, active, db);
      assert shown.active == active;
      if shown.failure.None? {
        ReplayClickMisses(messages, from + 1, clicked, active, db);
      }
    }
  }

  /**
    A click on a button keyed with the log length selects nothing on replay:
    position 0 is the only one displayed under that index, and in a
    well-formed log it is a user message, which has no buttons.
    */
  lemma LogLengthKeyMissesReplay(messages: seq<Message>, i: nat, active: Option<string>, db: Database)
    requires WellFormedLog(messages) && |messages| > 0
    ensures Replay(messages, 0, Some(KeyString(WidgetKey(|messages|, i))), active, db).active == active
  {
    var n := |messages|;
    var clicked := Some(KeyString(WidgetKey(n, i)));
    assert messages[0].role == User;
    assert forall k | 0 <= k < |messages[0].content| :: !messages[0].content[k].Suggestions?;
    var head := ShowMessage(messages, 0, clicked, active, db);
    assert head.active == active;
    forall q | 1 <= q < n
      ensures ClickMisses(clicked, EffectiveIndex(Some(q), n))
    {
      forall j: nat
        ensures clicked != Some(KeyString(WidgetKey(q, j)))
      {
        KeyStringInjective(WidgetKey(n, i), WidgetKey(q, j));
      }
    }
    if head.failure.None? {
      ReplayClickMisses(messages, 1, clicked, active, db);
    }
  }

  /**
    The suggestions of an answer whose rendering raised are shown but can
    never be selected: the answer is not logged, and in the next run its
    button keys name no replayed button.
    */
  lemma RaisedAnswerNeverSelected(
    log: seq<Message>, active: Option<string>, prompt: string, key: string,
    reply: HttpReply, clicked: Option<string>, db: Database,
    i: nat, active': Option<string>, db': Database)
    requires WellFormedLog(log)
    requires ProcessMessage(log, active, prompt, key, reply, clicked, db).failure.Some?
    ensures var r := ProcessMessage(log, active, prompt, key, reply, clicked, db);
      && ButtonsOf(r.actions, |log| + 1)
      && Replay(r.log, 0, Some(KeyString(WidgetKey(|log| + 1, i))), active', db').active == active'
  {
    var r := ProcessMessage(log, active, prompt, key, reply, clicked, db);
    ExchangeKeepsLogWellFormed(log, active, prompt, key, reply, clicked, db);
    LogLengthKeyMissesReplay(r.log, i, active', db');
  }

  /**
    Clicking button `i` of the suggestions of message `p` sets the active
    suggestion to exactly that suggestion when the log is replayed, however
    many other suggestion lists the log shows.
    */
  lemma {:induction false} ReplayClickSelects(messages: seq<Message>, from: nat, p: nat, b: nat, i: nat, active: Option<string>, db: Database)
    requires from <= p < |messages|
    requires forall q | from <= q < p :: QueriesSucceed(messages[q].content, db)
    requires b < |messages[p].content| && messages[p].content[b].Suggestions?
    requires i < |messages[p].content[b].suggestions|
    requires SingleSuggestionBlock(messages[p].content) && QueriesSucceed(messages[p].content[..b], db)
    ensures Replay(messages, from, Some(KeyString(WidgetKey(EffectiveIndex(Some(p), |messages|), i))), active, db).active
      == Some(messages[p].content[b].suggestions[i])
    decreases p - from
  {
    var n := |messages|;
    var clicked := Some(KeyString(WidgetKey(EffectiveIndex(Some(p), n), i)));
    var shown := ShowMessage(messages, from, clicked, active, db);
    if from == p {
      RenderClickSelects(messages[p].content, b, i, EffectiveIndex(Some(p), n), active, db);
      forall q | p + 1 <= q < n
        ensures ClickMisses(clicked, EffectiveIndex(Some(q), n))
      {
        OtherMessagesMiss(n, p, q, i);
      }
      if shown.failure.None? {
        ReplayClickMisses(messages, p + 1, clicked, shown.active, db);
      }
    } else {
      assert QueriesSucceed(messages[from].content, db);
      ReplayClickSelects(messages, from + 1, p, b, i, shown.active, db);
    }
  }
}

=== FILE: types.dfy ===
/**
  The values the Cortex Analyst front-end exchanges: conversation messages,
  the typed content blocks of a reply, the HTTP reply of the analyst
  endpoint, query results and the exceptions the script can raise.
  */
module Types {
  import opened Wrappers

  /** Role of a conversation message; serialised as "user" / "assistant". */
  datatype Role = User | Assistant

  /**
    One element of a message's `content` list, dispatched on its "type" key:
    "text", "suggestions", "sql"; any other type tag is carried as `Other`,
    whose `kind` is therefore never one of those three (`UnhandledKind`).
    */
  datatype Block =
    | Text(text: string)
    | Suggestions(suggestions: seq<string>)
    | Sql(statement: string)
    | Other(kind: string)

  /** A type tag the dispatch of `display_content` has no branch for. */
  predicate UnhandledKind(kind: string) {
    kind != "text" && kind != "suggestions" && kind != "sql"
  }

  /** An entry of `st.session_state.messages`. */
  datatype Message = Message(role: Role, content: seq<Block>)

  /**
    The JSON document the analyst endpoint answers with, already decoded;
    `messageContent` is `response["message"]["content"]` when present.
    */
  datatype Response = Response(messageContent: Option<seq<Block>>)

  /**
    The reply of `_snowflake.send_snow_api_request`: its status and its
    body, where `None` stands for a body that is not valid JSON.
    */
  datatype HttpReply = HttpReply(status: int, body: Option<Response>)

  /** Shape of the pandas frame a SQL statement produced. */
  datatype Frame = Frame(rows: nat, cols: nat)

  /** Outcome of `session.sql(statement).to_pandas()`. */
  datatype QueryResult = Rows(frame: Frame) | QueryError

  /** The data backend, as a function from statement to outcome. */
  type Database = string -> QueryResult

  /** The exceptions that can escape `process_message` and end the script run. */
  datatype Error =
    | UnknownModel(key: string)                  // KeyError on FILES[yaml_file]
    | RequestFailed(status: int, reply: HttpReply) // the explicit raise for status >= 400
    | MalformedJson                              // json.loads rejects the body
    | MissingContent                             // no response["message"]["content"]
    | QueryFailed(statement: string)             // the SQL of a block fails

  /** Python truthiness of an optional string: neither `None` nor "". */
  predicate Truthy(s: Option<string>) {
    s.Some? && s.value != ""
  }
}

=== FILE: widget_keys.dfy ===
/**
  Widget keys of the suggestion buttons. A button is keyed by the f-string
  `f"{message_index}_{suggestion_index}"`; this module defines that string
  and proves it determines the pair of naturals it was built from, so that
  buttons of different (message, position) pairs never share a key.
  */
module WidgetKeys {
  import opened Wrappers

  /** The pair a suggestion button's key is derived from. */
  datatype WidgetKey = WidgetKey(message: nat, item: nat)

  predicate IsDigit(c: char) {
    '0' <= c <= '9'
  }

  predicate AllDigits(s: string) {
    forall i | 0 <= i < |s| :: IsDigit(s[i])
  }

  function DigitChar(d: nat): (c: char)
    requires d < 10
    ensures IsDigit(c)
    ensures c as int - '0' as int == d
  {
    ('0' as int + d) as char
  }

  /** Python's `str(n)` for a natural number: its shortest decimal numeral. */
  function Decimal(n: nat): (s: string)
    ensures |s| >= 1
    ensures AllDigits(s)
    ensures s[0] == '0' ==> n == 0
    decreases n
  {
    if n < 10 then [DigitChar(n)] else Decimal(n / 10) + [DigitChar(n % 10)]
  }

  /** The number a non-empty string of decimal digits denotes. */
  function DecimalValue(s: string): nat
    requires AllDigits(s)
  {
    if |s| == 0 then 0
    else DecimalValue(s[..|s| - 1]) * 10 + (s[|s| - 1] as int - '0' as int)
  }

  /** Reading back a numeral gives the number it was written from. */
  lemma {:induction false} DecimalRoundTrip(n: nat)
    ensures DecimalValue(Decimal(n)) == n
  {
    if n >= 10 {
      var s := Decimal(n);
      assert s[..|s| - 1] == Decimal(n / 10);
      DecimalRoundTrip(n / 10);
    }
  }

  /** The key string `f"{message}_{item}"`. */
  function KeyString(k: WidgetKey): string {
    Decimal(k.message) + "_" + Decimal(k.item)
  }

  /** Position of the first occurrence of `c` in `s`. */
  function Find(s: string, c: char): (r: Option<nat>)
    ensures r.Some? ==> r.value < |s| && s[r.value] == c
    ensures r.Some? ==> forall i | 0 <= i < r.value :: s[i] != c
    ensures r.None? ==> forall i | 0 <= i < |s| :: s[i] != c
  {
    if |s| == 0 then None
    else if s[0] == c then Some(0)
    else match Find(s[1..], c)
      case None => None
      case Some(p) => Some(p + 1)
  }

  /** Splits a key string at its first underscore and reads both numerals. */
  function ParseKey(s: string): Option<WidgetKey> {
    match Find(s, '_')
    case None => None
    case Some(p) =>
      var a := s[..p];
      var b := s[p + 1..];
      if |a| > 0 && |b| > 0 && AllDigits(a) && AllDigits(b)
      then Some(WidgetKey(DecimalValue(a), DecimalValue(b)))
      else None
  }

  /** Parsing a key string recovers the pair it was built from. */
  lemma KeyRoundTrip(k: WidgetKey)
    ensures ParseKey(KeyString(k)) == Some(k)
  {
    var m := Decimal(k.message);
    var i := Decimal(k.item);
    var s := KeyString(k);
    assert s[|m|] == '_';
    var p := Find(s, '_');
    assert p.Some?;
    assert p.value == |m|;
    assert s[..|m|] == m;
    assert s[|m| + 1..] == i;
    DecimalRoundTrip(k.message);
    DecimalRoundTrip(k.item);
  }

  /** Two buttons share a key string exactly when they share the pair. */
  lemma KeyStringInjective(j: WidgetKey, k: WidgetKey)
    ensures KeyString(j) == KeyString(k) <==> j == k
  {
    KeyRoundTrip(j);
    KeyRoundTrip(k);
  }
}

=== FILE: wrappers.dfy ===
/** Failure-compatible datatypes used throughout the model. */
module Wrappers {

  /** An optional value: Python's `None` or a present value. */
  datatype Option<+T> = None | Some(value: T)

  /** The outcome of an operation that either returns a value or raises. */
  datatype Result<+R, +E> = Success(value: R) | Failure(error: E) {
    predicate IsFailure() {
      Failure?
    }

    function PropagateFailure<U>(): Result<U, E>
      requires Failure?
    {
      Failure(error)
    }

    function Extract(): R
      requires Success?
    {
      value
    }
  }
}
